=== FILE: README.md ===
# TodoList component — a Dafny model

The `TodoList` React component keeps a list of todos that it loads from a
JSON server, and lets the user do four things with it:

- add a todo under a freshly generated five-digit id;
- edit a todo's title;
- delete a todo;
- search the list and sort it by title.

The list on screen (`viewTodos`) is always derived from the loaded list
(`todos`) by `updateViewTodos`. That function filters the list by a
case-insensitive substring search and, when sorting is on, sorts a copy
by title. Every change request (create, update, delete) raises a busy
flag when it starts. It lowers that flag when its promise chain settles.
On success it flips `refreshTodos`, which makes the load effect fetch the
list again.

The model has five modules:

- `Todos`: the todo record `{ id, title, completed }`.
- `Text`: `toLowerCase` (ASCII letters only), `includes` (a left-to-right
  scan, proved equivalent to "occurs at some index") and the ordinal order
  that stands in for `localeCompare`. The order is proved reflexive, total
  and transitive.
- `ViewProjection`: `updateViewTodos` as the pure function `Project`. It is
  built from two parts:
  - `FilterMatching`, which keeps exactly the matching todos, with their
    multiplicities, in their original order;
  - `SortByTitle`, a stable insertion sort, which yields a title-ordered
    permutation.
- `Identifiers`: `maxId`.
  - `Value` models `Number(id)`, `ToDecimal` models `String(n)` and
    `MaxValue` models `Math.max(..., 0)`.
  - `NextId` models the `'00000' + n` / `slice(-5)` truncation. The result
    is always five digits and reads as `(max + 1) mod 100000`.
  - Below the wrap-around point the new id is larger than, and different
    from, every id in the list.
  - At 99999 the id wraps to `"00000"`, and a list holding a six-digit id
    can be handed an id that is already taken.
- `TodoListComponent`: the component's state as the class `TodoList`, with
  one field per state variable.
  - Each event handler is a method.
  - Each request is split into a begin step, run when the handler is
    called, and a settle step, run when the promise chain ends, with an
    `Outcome` of success or failure.
  - A begin step returns what the handler's callbacks close over: the
    body sent, and the value of `refreshTodos` in the render that created
    the handler. The settle step sets `refreshTodos` to the negation of
    that captured value, as the code does.
  - Every method states its whole new state as an update of the old
    `State()` snapshot, except `BeginLoad`, which has no `modifies` clause
    and changes nothing.
  - The invariant `ViewInSync()` says `viewTodos == Project(isSortedTodos,
    search, todos)`. Every method except `SettleLoad` keeps it, and the
    constructor, `SetSearch` and `ToggleSort` establish it. `SettleLoad`
    restores it only when the sort flag and search it captured are still
    current. Otherwise it leaves the view projected with the stale values,
    as the code does.
  - Every method keeps a second invariant, `ViewWithinList()`: every todo on
    screen is a todo of the loaded list. A load that settles with a stale
    flag or search breaks `ViewInSync()` but not this one, so the row a user
    clicks to edit always names a loaded todo.

Where the code does not do what its UI suggests (one request of each kind
at a time, no empty todo, a view that follows the current search and sort
flag), the model follows the code:

- `addTodo` (src/TodoList.js:73-92) sends the input even when it is
  empty. The empty-title guard exists only in `updateTodo` (line 95).
- The handlers do not look at the busy flags, so `BeginCreate`,
  `BeginUpdate` and `BeginDelete` have no busy-flag precondition. Only the
  `disabled` attributes of some buttons look at them:
  - `isCreating` disables the Add button (line 168);
  - `isUpdating` disables each row's Edit button, which starts editing
    (lines 192-197), not the Save button that calls `updateTodo`;
  - `isDeleting` disables each row's Delete button (lines 201-203).
- The Save button (line 181) has no `disabled` attribute, so nothing stops
  a second `updateTodo`, and so a second PUT, while `isUpdating` is true.
  `OverlappingUpdates` shows two updates in flight at once, against the
  intent of one request of each kind at a time. It also shows that the
  first update's settle lowers `isUpdating` while the second PUT is still
  outstanding.
- The load effect re-projects the loaded list with the sort flag and the
  search of the render it belongs to (lines 60-68), not with their values
  when the response arrives. `SettleLoad` therefore takes them from the
  `LoadRequest`, and it promises `ViewInSync()` only when they did not
  change in the meantime.

## Model

| member | source | states |
|---|---|---|
| Text.ToLower | src/TodoList.js:10 | `toLowerCase` keeps the length, maps each code point through the ASCII lower-casing and leaves no ASCII capital |
| Text.ToLowerIdempotent | src/TodoList.js:10 | lower-casing twice is lower-casing once |
| Text.Includes | src/TodoList.js:10 | `includes` as a left-to-right scan; no contract of its own, its meaning is `IncludesIffOccurs` |
| Text.IncludesIffOccurs | src/TodoList.js:10 | `includes` is true exactly when the pattern occurs at some index of the text |
| Text.IncludesEmpty | src/TodoList.js:10 | every text includes the empty string |
| Text.LexLe | src/TodoList.js:14 | the title order standing in for `localeCompare(...) <= 0`: lexicographic by code point; no contract of its own, `LexLeReflexive`, `LexLeTotal` and `LexLeTransitive` make it a total preorder |
| Text.LexLeReflexive | src/TodoList.js:14 | every title compares no later than itself |
| Text.LexLeTotal | src/TodoList.js:14 | any two titles are comparable |
| Text.LexLeTransitive | src/TodoList.js:14 | the title order is transitive |
| ViewProjection.Matches | src/TodoList.js:10 | the filter test: the lower-cased title includes the lower-cased search; no contract of its own, `MatchesIgnoresCase` states its case-insensitivity |
| ViewProjection.MatchesIgnoresCase | src/TodoList.js:10 | the search test gives the same answer when the search or the title is lower-cased first |
| ViewProjection.FilterMatching | src/TodoList.js:9-11 | the filter is no longer than its input and keeps only todos of the input that match |
| ViewProjection.FilterMatchingCount | src/TodoList.js:9-11 | each matching todo is kept as often as it occurs; each other todo is dropped |
| ViewProjection.FilterMatchingOrder | src/TodoList.js:9-11 | the kept todos are a subsequence of the input, in its order |
| ViewProjection.FilterMatchingSpec | src/TodoList.js:9-11 | a todo is kept if and only if it is in the input and matches, with its multiplicity, in order |
| ViewProjection.FilterMatchingEmptySearch | src/TodoList.js:6-11 | filtering by the empty search would keep the whole list, so the `search === ''` shortcut agrees with the filter |
| ViewProjection.SearchFilter | src/TodoList.js:6-11 | the filter step with its `search === ''` shortcut; no contract of its own, `FilterMatchingEmptySearch` shows the shortcut agrees with the filter |
| ViewProjection.InsertByTitle | src/TodoList.js:14 | inserting adds exactly the one todo to the multiset of the list |
| ViewProjection.InsertByTitleSorted | src/TodoList.js:14 | inserting into a title-ordered list keeps it title-ordered |
| ViewProjection.SortByTitle | src/TodoList.js:13-14 | the sort of a copy: a permutation of its input (its own contract); `SortByTitleSpec` adds that the result is title-ordered |
| ViewProjection.SortByTitleSpec | src/TodoList.js:13-14 | the sort yields a title-ordered permutation of its input |
| ViewProjection.SortByTitleOfSorted | src/TodoList.js:13-15 | sorting a title-ordered list returns it unchanged |
| ViewProjection.Project | src/TodoList.js:5-17 | `updateViewTodos`; no contract of its own, `ProjectUnsorted`, `ProjectSorted` and `ProjectMembers` determine its result for either flag |
| ViewProjection.ProjectEmptySearch | src/TodoList.js:5-17 | empty search with sorting off gives the list itself; with sorting on, the same multiset |
| ViewProjection.ProjectUnsorted | src/TodoList.js:5-17 | sorting off: exactly the matching todos, with their multiplicities, in list order |
| ViewProjection.ProjectSorted | src/TodoList.js:13-15 | sorting on: a title-ordered permutation of the unsorted view |
| ViewProjection.ProjectMembers | src/TodoList.js:5-17 | whatever the sort flag, a todo is shown if and only if it is in the list and matches the search |
| ViewProjection.ProjectSortIdempotent | src/TodoList.js:13-15 | sorting the sorted view again changes nothing |
| Identifiers.Value | src/TodoList.js:20 | `Number(id)` for a digit string; no contract of its own, `ToDecimal` reads back through it, `ValueInjective` and `ValueBelowPow10` bound it |
| Identifiers.ValueBelowPow10 | src/TodoList.js:20 | a digit string of length k reads below 10^k |
| Identifiers.ToDecimal | src/TodoList.js:21 | `String(n)`: digits only, no leading zero, reads back as n |
| Identifiers.ValueAppend | src/TodoList.js:21 | concatenation shifts the left part by the width of the right part |
| Identifiers.ValueOfLastFive | src/TodoList.js:22 | the last five digits read as the value modulo 100000 |
| Identifiers.ValueOfZeroPadded | src/TodoList.js:21 | the `'00000'` prefix does not change the value |
| Identifiers.ValueInjective | src/TodoList.js:22 | two digit strings of one length with one value are equal |
| Identifiers.MaxValue | src/TodoList.js:20 | bounds every id's value and is 0 or the value of some id |
| Identifiers.NextId | src/TodoList.js:19-23 | five digits reading as (max + 1) mod 100000; below the wrap-around, larger than and different from every id |
| Identifiers.AboveMaxIsFresh | src/TodoList.js:20-22 | below the wrap-around, an id reading (max + 1) mod 100000 is larger than and differs from every id |
| Identifiers.IdsBelowDiffer | src/TodoList.js:20 | a digit string reading above the maximum is none of the ids |
| Identifiers.NextIdIsUnique | src/TodoList.js:19-23 | the new id is the only five-digit string with that value |
| Identifiers.NextIdOfEmpty | src/TodoList.js:19-23 | the empty list gets "00001" |
| Identifiers.NextIdAfterTen | src/TodoList.js:19-23 | ids "00003" and "00010" give "00011" (numeric, not string, maximum) |
| Identifiers.NextIdWrapsAround | src/TodoList.js:20-22 | a maximum of 99999 gives "00000" |
| Identifiers.NextIdCanCollide | src/TodoList.js:20-22 | next to a six-digit id "100000", the list's "00001" is handed out again |
| TodoListComponent.TodoList.constructor | src/TodoList.js:26-42 | the initial `useState` values; the view is in sync and within the list |
| TodoListComponent.TodoList.SetSearch | src/TodoList.js:143-154 | stores the search and re-projects with it; only search and view change; the view is in sync and within the list |
| TodoListComponent.TodoList.ToggleSort | src/TodoList.js:130-133 | negates the sort flag and re-projects with the negated flag; the view is in sync and within the list |
| TodoListComponent.TodoList.SetNewTodo | src/TodoList.js:166 | only the new-todo input changes |
| TodoListComponent.TodoList.StartEditing | src/TodoList.js:177-196 | called with a todo of a rendered row; only the edited id and title change, and the todo edited is one of the loaded list |
| TodoListComponent.TodoList.SetEditingTitle | src/TodoList.js:185-187 | only the edited title changes |
| TodoListComponent.TodoList.BeginCreate | src/TodoList.js:73-84 | raises `isCreating` only; sends the input under `NextId` of the list, not completed, with the captured refresh flag |
| TodoListComponent.TodoList.SettleCreate | src/TodoList.js:85-91 | success: negated captured refresh flag, input cleared, `isCreating` lowered; failure: only `isCreating` lowered |
| TodoListComponent.TodoList.BeginUpdate | src/TodoList.js:94-107 | empty title or no edited id: nothing sent, nothing changes; otherwise raises `isUpdating` and sends id, title, not completed |
| TodoListComponent.TodoList.SettleUpdate | src/TodoList.js:108-115 | success: negated captured refresh flag, editing cleared, `isUpdating` lowered; failure: only `isUpdating` lowered |
| TodoListComponent.TodoList.BeginDelete | src/TodoList.js:118-122 | raises `isDeleting` only; the request names the id and the captured refresh flag |
| TodoListComponent.TodoList.SettleDelete | src/TodoList.js:123-127 | success: negated captured refresh flag, `isDeleting` lowered; failure: only `isDeleting` lowered |
| TodoListComponent.TodoList.BeginLoad | src/TodoList.js:44-63 | captures the render's sort flag and search; changes nothing |
| TodoListComponent.TodoList.SettleLoad | src/TodoList.js:57-70 | success: the loaded list replaces `todos` and is projected with the captured flag and search; in sync when they are current; failure: nothing changes; the view stays within the list either way |
| TodoListComponent.OverlappingCreateAndDelete | src/TodoList.js:73-128 | a create and a delete that overlap and both succeed: the create's settle flips `refreshTodos`, the delete's settle leaves it as it is (so no second load); whole new state stated |
| TodoListComponent.StaleLoad | src/TodoList.js:44-71 | a load started with an empty search that settles after the search changed to "zzz" shows the loaded todo titled "b" although it does not match "zzz"; the view is out of sync |
| TodoListComponent.OverlappingUpdates | src/TodoList.js:94-116 | a second `updateTodo` while `isUpdating` is true still sends the same PUT; the first settle lowers `isUpdating` while the second PUT is outstanding; after both succeed editing is cleared, `isUpdating` is down and `refreshTodos` has flipped once |

## Left out

- HTTP, URLs, headers, JSON encoding and the server's response body are not modelled. A request is a begin step plus a settle step that is told whether the chain succeeded. The loaded list is a parameter of `SettleLoad`.
- `isLoading` and the loader (lines 27, 45, 70, 173) are not modelled. While a load is outstanding the rows are not rendered (lines 173-213), and neither are their Edit, Save and Delete buttons, so `StartEditing`, `BeginUpdate` and `BeginDelete` cannot be triggered then. As with the `disabled` attributes, the model leaves that gate to the caller.
- React's scheduling is not modelled: the effect that runs when `refreshTodos` changes, batched state updates and re-renders. Each method is one atomic step. A caller orders the steps, as `OverlappingCreateAndDelete` does.
- Concurrency is not modelled. Two loads whose responses arrive out of order are only covered as far as `SettleLoad` describes a single arrival.
- The JSX is not modelled: the markup, the `disabled` attributes and `console.log`. The `disabled` attributes gate Add while `isCreating`, Edit (not Save) while `isUpdating`, and Delete while `isDeleting`; on top of them `isLoading` hides every row with its Edit, Save and Delete buttons. The model leaves these gates to the caller.
- Text.ToLower: maps only the ASCII letters A-Z, because full Unicode case mapping is a table outside the component. Its length and positions are counted in code points, not in UTF-16 code units as in JavaScript.
- ViewProjection.SortByTitle: orders titles by code point instead of `localeCompare`, because the locale's collation is outside the component. This also differs from JavaScript's UTF-16 code-unit order between U+E000-U+FFFF and characters above U+FFFF. Its order is only proved total, reflexive and transitive.
- ViewProjection.SortByTitle: is stable by construction, but no lemma states stability, since the order of equal titles in `Array.prototype.sort` is the only thing it would add.
- Identifiers.NextId: requires every id to be a string of decimal digits. Ids that `Number` reads as `NaN` (which makes `maxId` return `"00NaN"`) are not modelled. Nor are signs, whitespace, exponent notation, or values beyond 2^53 where floating point loses precision.

=== FILE: identifiers.dfy ===
/** `maxId`: the id of a new todo, one more than the largest numeric id in
    the list, as the last five characters of `'00000' + n`. */
module Identifiers {
  import opened Todos

  /** Width of a generated id: `str.slice(-5)`. */
  const IdWidth: nat := 5

  predicate IsDigit(c: char)
  {
    '0' <= c <= '9'
  }

  predicate IsDigits(s: string)
  {
    forall i :: 0 <= i < |s| ==> IsDigit(s[i])
  }

  /** Every id of the list is a string of decimal digits, the form in which
      `Number(todo.id)` reads the id as a decimal number. */
  predicate AllDigitIds(todos: seq<Todo>)
  {
    forall k :: 0 <= k < |todos| ==> IsDigits(todos[k].id)
  }

  function Pow10(k: nat): nat
  {
    if k == 0 then 1 else 10 * Pow10(k - 1)
  }

  function DigitValue(c: char): nat
    requires IsDigit(c)
  {
    c as int - '0' as int
  }

  function DigitChar(d: nat): char
    requires d < 10
  {
    ('0' as int + d) as char
  }

  /** `Number(s)` for a string of decimal digits (the empty string reads as
      0, as in JavaScript). */
  function Value(s: string): nat
    requires IsDigits(s)
  {
    if s == [] then 0 else Value(s[..|s| - 1]) * 10 + DigitValue(s[|s| - 1])
  }

  /** A digit string reads below 10 to the power of its length. */
  lemma {:induction false} ValueBelowPow10(s: string)
    requires IsDigits(s)
    ensures Value(s) < Pow10(|s|)
  {
    if s != [] {
      ValueBelowPow10(s[..|s| - 1]);
    }
  }

  /** `String(n)` for a non-negative integer: decimal digits without leading
      zeros, which read back as `n`. */
  function ToDecimal(n: nat): (s: string)
    ensures IsDigits(s) && |s| >= 1
    ensures |s| > 1 ==> s[0] != '0'
    ensures Value(s) == n
  {
    if n < 10 then [DigitChar(n)]
    else
      var s := ToDecimal(n / 10) + [DigitChar(n % 10)];
      assert s[..|s| - 1] == ToDecimal(n / 10);
      s
  }

  /** Reading a concatenation: the left part is shifted by the width of the
      right part. */
  lemma {:induction false} ValueAppend(a: string, b: string)
    requires IsDigits(a) && IsDigits(b)
    ensures IsDigits(a + b)
    ensures Value(a + b) == Value(a) * Pow10(|b|) + Value(b)
    decreases |b|
  {
    var ab := a + b;
    if b == [] {
      assert ab == a;
    } else {
      var b' := b[..|b| - 1];
      var d := DigitValue(b[|b| - 1]);
      assert ab[..|ab| - 1] == a + b';
      ValueAppend(a, b');
      ShiftByDigit(Value(a), Pow10(|b'|), Value(b'), d);
    }
  }

  /** The one nonlinear step of `ValueAppend`, kept apart so that the solver
      meets it without the rest of that proof's context. */
  lemma ShiftByDigit(x: nat, p: nat, y: nat, d: nat)
    ensures (x * p + y) * 10 + d == x * (10 * p) + (y * 10 + d)
  {
  }

  /** The last five digits of a digit string read as its value modulo
      100000. */
  lemma ValueOfLastFive(s: string)
    requires IsDigits(s) && IdWidth <= |s|
    ensures IsDigits(s[|s| - IdWidth..])
    ensures Value(s[|s| - IdWidth..]) == Value(s) % 100000
  {
    var hi, lo := s[..|s| - IdWidth], s[|s| - IdWidth..];
    assert IsDigits(hi) && IsDigits(lo);
    assert s == hi + lo;
    LowFiveDigits(hi, lo);
    assert Value(lo) == Value(s) % 100000;
  }

  lemma LowFiveDigits(hi: string, lo: string)
    requires IsDigits(hi) && IsDigits(lo) && |lo| == IdWidth
    ensures IsDigits(hi + lo) && Value(lo) == Value(hi + lo) % 100000
  {
    ValueAppend(hi, lo);
    ValueBelowPow10(lo);
    assert Pow10(IdWidth) == 100000;
    ModOfShifted(Value(hi), Value(lo));
  }

  /** Remainder of a shifted number, kept apart from the digit-string
      reasoning for the same reason as `ShiftByDigit`. */
  lemma ModOfShifted(q: nat, r: nat)
    requires r < 100000
    ensures (q * 100000 + r) % 100000 == r
  {
    var x := q * 100000 + r;
    assert x / 100000 == q;
  }

  /** A number below the modulus is its own remainder; with `MaxValue` in
      scope the solver does not find this in time unaided. */
  lemma SmallMod(x: nat)
    requires x < 100000
    ensures x % 100000 == x
  {
  }

  /** Appending one digit: the value shifts left by one place. */
  lemma ValueSnoc(s: string, c: char)
    requires IsDigits(s) && IsDigit(c)
    ensures IsDigits(s + [c])
    ensures Value(s + [c]) == Value(s) * 10 + DigitValue(c)
  {
    assert (s + [c])[..|s|] == s;
  }

  /** Leading zeros do not change the value. */
  lemma {:induction false} ValueOfZeroPadded(z: string, s: string)
    requires forall i :: 0 <= i < |z| ==> z[i] == '0'
    requires IsDigits(s)
    ensures IsDigits(z + s) && Value(z + s) == Value(s)
    decreases |s|
  {
    if s == [] {
      assert z + s == z;
      ZerosValue(z);
    } else {
      var s' := s[..|s| - 1];
      assert (z + s)[..|z + s| - 1] == z + s';
      ValueOfZeroPadded(z, s');
    }
  }

  lemma {:induction false} ZerosValue(z: string)
    requires forall i :: 0 <= i < |z| ==> z[i] == '0'
    ensures IsDigits(z) && Value(z) == 0
  {
    if z != [] {
      ZerosValue(z[..|z| - 1]);
    }
  }

  /** Two digit strings of the same length with the same value are equal. */
  lemma {:induction false} ValueInjective(a: string, b: string)
    requires IsDigits(a) && IsDigits(b) && |a| == |b|
    requires Value(a) == Value(b)
    ensures a == b
  {
    if a != [] {
      var a', b' := a[..|a| - 1], b[..|b| - 1];
      var x, d, y, e := Value(a'), DigitValue(a[|a| - 1]), Value(b'), DigitValue(b[|b| - 1]);
      assert x * 10 + d == y * 10 + e;
      assert x == y && d == e;
      ValueInjective(a', b');
      assert a == a' + [a[|a| - 1]];
      assert b == b' + [b[|b| - 1]];
    }
  }

  /** `Math.max(...todos.map(todo => Number(todo.id)), 0)`: the largest id
      value, or 0 for a list without ids. */
  function MaxValue(todos: seq<Todo>): (m: nat)
    requires AllDigitIds(todos)
    ensures forall k :: 0 <= k < |todos| ==> Value(todos[k].id) <= m
    ensures m == 0 || exists k :: 0 <= k < |todos| && Value(todos[k].id) == m
  {
    if todos == [] then 0
    else
      var head, rest := Value(todos[0].id), MaxValue(todos[1..]);
      assert forall k :: 1 <= k < |todos| ==> todos[k] == todos[1..][k - 1];
      if head >= rest then head else rest
  }

  /** `maxId(todos)`: always five decimal digits, reading as one more than
      the largest id, modulo 100000. Below the wrap-around point it reads
      larger than every id in the list, so it is none of them. */
  function NextId(todos: seq<Todo>): (r: string)
    requires AllDigitIds(todos)
    ensures |r| == IdWidth && IsDigits(r)
    ensures Value(r) == (MaxValue(todos) + 1) % 100000
    ensures MaxValue(todos) + 1 < 100000 ==>
      && Value(r) == MaxValue(todos) + 1
      && forall k :: 0 <= k < |todos| ==> Value(todos[k].id) < Value(r) && todos[k].id != r
  {
    var str := "00000" + ToDecimal(MaxValue(todos) + 1);
    var r := str[|str| - IdWidth..];
    ValueOfZeroPadded("00000", ToDecimal(MaxValue(todos) + 1));
    ValueOfLastFive(str);
    AboveMaxIsFresh(todos, r);
    r
  }

  /** Below the wrap-around point, an id reading one more than the largest
      id modulo 100000 is larger than every id, so it is none of them. */
  lemma AboveMaxIsFresh(todos: seq<Todo>, r: string)
    requires AllDigitIds(todos) && IsDigits(r)
    requires Value(r) == (MaxValue(todos) + 1) % 100000
    ensures MaxValue(todos) + 1 < 100000 ==>
      && Value(r) == MaxValue(todos) + 1
      && forall k :: 0 <= k < |todos| ==> Value(todos[k].id) < Value(r) && todos[k].id != r
  {
    if MaxValue(todos) + 1 < 100000 {
      SmallMod(MaxValue(todos) + 1);
      IdsBelowDiffer(todos, r);
    }
  }

  /** A digit string reading larger than every id of the list is none of
      them. */
  lemma IdsBelowDiffer(todos: seq<Todo>, r: string)
    requires AllDigitIds(todos) && IsDigits(r)
    requires MaxValue(todos) < Value(r)
    ensures forall k :: 0 <= k < |todos| ==> Value(todos[k].id) < Value(r)
    ensures forall k :: 0 <= k < |todos| ==> todos[k].id != r
  {
  }

  /** Five digits reading as the expected value are the new id. */
  lemma NextIdIsUnique(todos: seq<Todo>, id: string)
    requires AllDigitIds(todos)
    requires |id| == IdWidth && IsDigits(id)
    requires Value(id) == (MaxValue(todos) + 1) % 100000
    ensures NextId(todos) == id
  {
    ValueInjective(NextId(todos), id);
  }

  /** The five-digit ids used in the examples below, read as numbers. */
  lemma ValuesOfSmallIds()
    ensures IsDigits("00000") && Value("00000") == 0
    ensures IsDigits("00001") && Value("00001") == 1
    ensures IsDigits("00003") && Value("00003") == 3
    ensures IsDigits("00010") && Value("00010") == 10
    ensures IsDigits("00011") && Value("00011") == 11
  {
    ZerosValue("00000");
    ValuesEndingInOneDigit();
    ValuesEndingInTwoDigits();
  }

  lemma ValuesEndingInOneDigit()
    ensures IsDigits("00001") && Value("00001") == 1
    ensures IsDigits("00003") && Value("00003") == 3
  {
    ZerosValue("0000");
    ValueSnoc("0000", '1');
    ValueSnoc("0000", '3');
    assert "0000" + ['1'] == "00001" && "0000" + ['3'] == "00003";
  }

  lemma ValuesEndingInTwoDigits()
    ensures IsDigits("00010") && Value("00010") == 10
    ensures IsDigits("00011") && Value("00011") == 11
  {
    ZerosValue("000");
    ValueSnoc("000", '1');
    assert "000" + ['1'] == "0001";
    ValueSnoc("0001", '0');
    ValueSnoc("0001", '1');
    assert "0001" + ['0'] == "00010" && "0001" + ['1'] == "00011";
  }

  /** The empty list gets the id "00001". */
  lemma NextIdOfEmpty()
    ensures NextId([]) == "00001"
  {
    ValuesOfSmallIds();
    assert 1 % 100000 == 1;
    NextIdIsUnique([], "00001");
  }

  /** Ids "00003" and "00010" give "00011", whatever the titles. */
  lemma NextIdAfterTen(a: Todo, b: Todo)
    requires a.id == "00003" && b.id == "00010"
    ensures AllDigitIds([a, b]) && NextId([a, b]) == "00011"
  {
    ValuesOfSmallIds();
    var todos := [a, b];
    assert todos[1..] == [b];
    assert MaxValue(todos) + 1 == 11;
    assert 11 % 100000 == 11;
    NextIdIsUnique(todos, "00011");
  }

  /** At the largest five-digit id the counter wraps to "00000". */
  lemma NextIdWrapsAround(todos: seq<Todo>)
    requires AllDigitIds(todos)
    requires MaxValue(todos) == 99999
    ensures NextId(todos) == "00000"
  {
    assert MaxValue(todos) + 1 == 100000;
    assert 100000 % 100000 == 0;
    ValuesOfSmallIds();
    NextIdIsUnique(todos, "00000");
  }

  /** "100000" reads as 100000. */
  lemma ValueOfSixDigitId()
    ensures IsDigits("100000") && Value("100000") == 100000
  {
    ZerosValue("00000");
    ValueSnoc([], '1');
    ValueAppend("1", "00000");
    assert Pow10(IdWidth) == 100000;
    assert [] + ['1'] == "1" && "1" + "00000" == "100000";
  }

  /** With an id longer than five digits the truncation can hand out an id
      that is already taken: "00001" next to "100000" gets "00001" again. */
  lemma NextIdCanCollide(a: Todo, b: Todo)
    requires a.id == "00001" && b.id == "100000"
    ensures AllDigitIds([a, b]) && NextId([a, b]) == a.id
  {
    ValuesOfSmallIds();
    ValueOfSixDigitId();
    var todos := [a, b];
    assert todos[1..] == [b];
    assert MaxValue(todos) + 1 == 1 * 100000 + 1;
    ModOfShifted(1, 1);
    NextIdIsUnique(todos, "00001");
  }
}

=== FILE: text.dfy ===
/** String primitives the todo list relies on: lower-casing, substring
    search (`String.prototype.includes`) and the title comparison used by the
    sort. Strings are sequences of Unicode code points (Dafny's `char`), not
    of the UTF-16 code units JavaScript strings are made of. */
module Text {

  /** Lower-cases one code point. Only the ASCII letters A-Z are mapped; full
      Unicode case mapping is not part of this model. */
  function LowerChar(c: char): char
  {
    if IsUpper(c) then (c as int - 'A' as int + 'a' as int) as char else c
  }

  /** An ASCII capital letter. */
  predicate IsUpper(c: char)
  {
    'A' <= c <= 'Z'
  }

  /** `s.toLowerCase()`: the same length, each code point passed through
      `LowerChar`, and no ASCII capital left. */
  function ToLower(s: string): (r: string)
    ensures |r| == |s|
    ensures forall i :: 0 <= i < |s| ==> r[i] == LowerChar(s[i])
    ensures forall i :: 0 <= i < |r| ==> !IsUpper(r[i])
  {
    if s == [] then [] else [LowerChar(s[0])] + ToLower(s[1..])
  }

  /** Lower-casing an already lower-cased string changes nothing. */
  lemma {:induction false} ToLowerIdempotent(s: string)
    ensures ToLower(ToLower(s)) == ToLower(s)
  {
    if s != [] {
      ToLowerIdempotent(s[1..]);
    }
  }

  /** `pattern` occurs in `text` starting at index `i`. */
  predicate OccursAt(text: string, pattern: string, i: int)
  {
    0 <= i && i + |pattern| <= |text| && text[i..i + |pattern|] == pattern
  }

  /** `text.includes(pattern)`: scans `text` from the left for an occurrence
      of `pattern`. */
  function Includes(text: string, pattern: string): bool
    decreases |text|
  {
    if |pattern| > |text| then false
    else if text[..|pattern|] == pattern then true
    else Includes(text[1..], pattern)
  }

  /** The scan finds an occurrence exactly when there is one. */
  lemma {:induction false} IncludesIffOccurs(text: string, pattern: string)
    ensures Includes(text, pattern) <==> exists i :: OccursAt(text, pattern, i)
    decreases |text|
  {
    if |pattern| > |text| {
      // no index leaves room for the pattern
    } else if text[..|pattern|] == pattern {
      assert OccursAt(text, pattern, 0);
    } else {
      IncludesIffOccurs(text[1..], pattern);
      if Includes(text[1..], pattern) {
        var j :| OccursAt(text[1..], pattern, j);
        assert text[1..][j..j + |pattern|] == text[j + 1..j + 1 + |pattern|];
        assert OccursAt(text, pattern, j + 1);
      } else {
        forall i | OccursAt(text, pattern, i)
          ensures false
        {
          assert i != 0;
          assert text[1..][i - 1..i - 1 + |pattern|] == text[i..i + |pattern|];
          assert OccursAt(text[1..], pattern, i - 1);
        }
      }
    }
  }

  /** Every string includes the empty string. */
  lemma IncludesEmpty(text: string)
    ensures Includes(text, [])
  {
    assert text[..0] == [];
  }

  /** Ordinal order on strings: lexicographic by code point, a proper prefix
      first. This stands in for the title comparator `localeCompare`. */
  predicate LexLe(a: string, b: string)
    decreases |a|
  {
    if a == [] then true
    else if b == [] then false
    else if a[0] != b[0] then a[0] < b[0]
    else LexLe(a[1..], b[1..])
  }

  lemma {:induction false} LexLeReflexive(a: string)
    ensures LexLe(a, a)
    decreases |a|
  {
    if a != [] {
      LexLeReflexive(a[1..]);
    }
  }

  /** Any two titles are comparable, so the comparator never leaves a pair
      unordered. */
  lemma {:induction false} LexLeTotal(a: string, b: string)
    ensures LexLe(a, b) || LexLe(b, a)
    decreases |a|
  {
    if a != [] && b != [] && a[0] == b[0] {
      LexLeTotal(a[1..], b[1..]);
    }
  }

  lemma {:induction false} LexLeTransitive(a: string, b: string, c: string)
    requires LexLe(a, b) && LexLe(b, c)
    ensures LexLe(a, c)
    decreases |a|
  {
    if a != [] && b != [] && c != [] && a[0] == b[0] && b[0] == c[0] {
      LexLeTransitive(a[1..], b[1..], c[1..]);
    }
  }
}

=== FILE: todo_list.dfy ===
/** The `TodoList` component's state and its event handlers. Every request
    to the backend is split into a begin step, run when the handler is
    called, and a settle step, run when the promise chain finishes. The
    value a begin step returns is what the handler's callbacks closed over:
    the body sent and the `refreshTodos` value of the render that created
    the handler. */
module TodoListComponent {
  import opened Todos
  import opened ViewProjection
  import opened Identifiers

  /** `editingId`: a todo id, or `null` when no todo is being edited. */
  datatype Option<T> = None | Some(value: T)

  /** How a request ended: its success callback ran, or the chain rejected
      (network failure, unparsable response). */
  datatype Outcome = Succeeded | Failed

  /** POST /todos in flight. */
  datatype CreateRequest = CreateRequest(body: Todo, refreshSeen: bool)

  /** PUT /todos/{body.id} in flight. */
  datatype UpdateRequest = UpdateRequest(body: Todo, refreshSeen: bool)

  /** DELETE /todos/{id} in flight. */
  datatype DeleteRequest = DeleteRequest(id: string, refreshSeen: bool)

  /** GET /todos in flight: the sort flag and search string the effect
      closed over. */
  datatype LoadRequest = LoadRequest(isSortedTodos: bool, search: string)

  /** All state variables of the component at one moment. */
  datatype Snapshot = Snapshot(
    todos: seq<Todo>,
    refreshTodos: bool,
    isCreating: bool,
    newTodo: string,
    isUpdating: bool,
    editingId: Option<string>,
    editingTitle: string,
    isDeleting: bool,
    search: string,
    viewTodos: seq<Todo>,
    isSortedTodos: bool)

  class TodoList {
    var todos: seq<Todo>
    var refreshTodos: bool
    var isCreating: bool
    var newTodo: string
    var isUpdating: bool
    var editingId: Option<string>
    var editingTitle: string
    var isDeleting: bool
    var search: string
    var viewTodos: seq<Todo>
    var isSortedTodos: bool

    function State(): Snapshot
      reads this
    {
      Snapshot(todos, refreshTodos, isCreating, newTodo, isUpdating, editingId,
               editingTitle, isDeleting, search, viewTodos, isSortedTodos)
    }

    /** The displayed list is the projection of the authoritative list under
        the current search and sort flag. */
    predicate ViewInSync()
      reads this
    {
      viewTodos == Project(isSortedTodos, search, todos)
    }

    /** Every todo on screen is a todo of the authoritative list. This holds
        even when a load settles with a stale flag or search, so the row a
        user clicks always names a loaded todo. */
    predicate ViewWithinList()
      reads this
    {
      forall u :: u in viewTodos ==> u in todos
    }

    /** The initial `useState` values. */
    constructor ()
      ensures State() == Snapshot([], false, false, "", false, None, "", false, "", [], false)
      ensures ViewInSync() && ViewWithinList()
    {
      todos, refreshTodos := [], false;
      isCreating, newTodo := false, "";
      isUpdating, editingId, editingTitle := false, None, "";
      isDeleting := false;
      search, viewTodos, isSortedTodos := "", [], false;
    }

    /** The search box's `onChange`: store the text and re-project with it. */
    method SetSearch(value: string)
      modifies this
      ensures State() == old(State()).(search := value,
                                       viewTodos := Project(old(isSortedTodos), value, old(todos)))
      ensures ViewInSync() && ViewWithinList()
    {
      search := value;
      viewTodos := Project(isSortedTodos, value, todos);
      ProjectMembers(isSortedTodos, value, todos);
    }

    /** `toggleSort`: negate the flag and re-project with the negated value;
        the authoritative list is left as it is. */
    method ToggleSort()
      modifies this
      ensures State() == old(State()).(isSortedTodos := !old(isSortedTodos),
                                       viewTodos := Project(!old(isSortedTodos), old(search), old(todos)))
      ensures ViewInSync() && ViewWithinList()
    {
      var sorted := !isSortedTodos;
      isSortedTodos := sorted;
      viewTodos := Project(sorted, search, todos);
      ProjectMembers(sorted, search, todos);
    }

    /** The new-todo input's `onChange`. */
    method SetNewTodo(value: string)
      modifies this
      ensures State() == old(State()).(newTodo := value)
      ensures old(ViewInSync()) ==> ViewInSync()
      ensures old(ViewWithinList()) ==> ViewWithinList()
    {
      newTodo := value;
    }

    /** The "edit" button of a row: start editing the todo that row shows.
        The todo edited is one of the authoritative list. */
    method StartEditing(t: Todo)
      requires t in viewTodos && ViewWithinList()
      modifies this
      ensures State() == old(State()).(editingId := Some(t.id), editingTitle := t.title)
      ensures t in todos && editingId == Some(t.id)
      ensures old(ViewInSync()) ==> ViewInSync()
      ensures old(ViewWithinList()) ==> ViewWithinList()
    {
      editingId := Some(t.id);
      editingTitle := t.title;
    }

    /** The inline edit input's `onChange`. */
    method SetEditingTitle(value: string)
      modifies this
      ensures State() == old(State()).(editingTitle := value)
      ensures old(ViewInSync()) ==> ViewInSync()
      ensures old(ViewWithinList()) ==> ViewWithinList()
    {
      editingTitle := value;
    }

    /** `addTodo`, up to the request: raise `isCreating` and send the
        current input under the next id, not completed. The handler does not
        look at `isCreating` or at an empty input. */
    method BeginCreate() returns (req: CreateRequest)
      requires AllDigitIds(todos)
      modifies this
      ensures req.body == Todo(NextId(old(todos)), old(newTodo), false)
      ensures req.refreshSeen == old(refreshTodos)
      ensures State() == old(State()).(isCreating := true)
      ensures old(ViewInSync()) ==> ViewInSync()
      ensures old(ViewWithinList()) ==> ViewWithinList()
    {
      req := CreateRequest(Todo(NextId(todos), newTodo, false), refreshTodos);
      isCreating := true;
    }

    /** `addTodo`, settled: on success flip the captured `refreshTodos` and
        clear the input; in every case lower `isCreating`. */
    method SettleCreate(req: CreateRequest, outcome: Outcome)
      modifies this
      ensures outcome == Succeeded ==>
        State() == old(State()).(refreshTodos := !req.refreshSeen, newTodo := "", isCreating := false)
      ensures outcome == Failed ==> State() == old(State()).(isCreating := false)
      ensures old(ViewInSync()) ==> ViewInSync()
      ensures old(ViewWithinList()) ==> ViewWithinList()
    {
      if outcome == Succeeded {
        refreshTodos := !req.refreshSeen;
        newTodo := "";
      }
      isCreating := false;
    }

    /** `updateTodo`, up to the request. With an empty edited title or no
        todo being edited it returns at once: nothing changes and nothing is
        sent. Otherwise it raises `isUpdating` and sends the edited title
        with `completed` reset to false. */
    method BeginUpdate() returns (req: Option<UpdateRequest>)
      modifies this
      ensures old(editingTitle) == "" || old(editingId) == None ==>
        req == None && State() == old(State())
      ensures old(editingTitle) != "" && old(editingId) != None ==>
        && req == Some(UpdateRequest(Todo(old(editingId).value, old(editingTitle), false), old(refreshTodos)))
        && State() == old(State()).(isUpdating := true)
      ensures old(ViewInSync()) ==> ViewInSync()
      ensures old(ViewWithinList()) ==> ViewWithinList()
    {
      if editingTitle == "" || editingId == None {
        return None;
      }
      req := Some(UpdateRequest(Todo(editingId.value, editingTitle, false), refreshTodos));
      isUpdating := true;
    }

    /** `updateTodo`, settled: on success flip the captured `refreshTodos`
        and leave editing mode; in every case lower `isUpdating`. */
    method SettleUpdate(req: UpdateRequest, outcome: Outcome)
      modifies this
      ensures outcome == Succeeded ==>
        State() == old(State()).(refreshTodos := !req.refreshSeen, editingId := None,
                                 editingTitle := "", isUpdating := false)
      ensures outcome == Failed ==> State() == old(State()).(isUpdating := false)
      ensures old(ViewInSync()) ==> ViewInSync()
      ensures old(ViewWithinList()) ==> ViewWithinList()
    {
      if outcome == Succeeded {
        refreshTodos := !req.refreshSeen;
        editingId := None;
        editingTitle := "";
      }
      isUpdating := false;
    }

    /** `deleteTodo(id)`, up to the request: raise `isDeleting`. */
    method BeginDelete(id: string) returns (req: DeleteRequest)
      modifies this
      ensures req == DeleteRequest(id, old(refreshTodos))
      ensures State() == old(State()).(isDeleting := true)
      ensures old(ViewInSync()) ==> ViewInSync()
      ensures old(ViewWithinList()) ==> ViewWithinList()
    {
      req := DeleteRequest(id, refreshTodos);
      isDeleting := true;
    }

    /** `deleteTodo(id)`, settled: on success flip the captured
        `refreshTodos`; in every case lower `isDeleting`. */
    method SettleDelete(req: DeleteRequest, outcome: Outcome)
      modifies this
      ensures outcome == Succeeded ==>
        State() == old(State()).(refreshTodos := !req.refreshSeen, isDeleting := false)
      ensures outcome == Failed ==> State() == old(State()).(isDeleting := false)
      ensures old(ViewInSync()) ==> ViewInSync()
      ensures old(ViewWithinList()) ==> ViewWithinList()
    {
      if outcome == Succeeded {
        refreshTodos := !req.refreshSeen;
      }
      isDeleting := false;
    }

    /** The load effect, up to the request: it reads the sort flag and the
        search string of the render it belongs to and changes no state. */
    method BeginLoad() returns (req: LoadRequest)
      ensures req.isSortedTodos == isSortedTodos && req.search == search
    {
      req := LoadRequest(isSortedTodos, search);
    }

    /** The load effect, settled: on success the loaded list becomes the
        authoritative list and is projected with the captured flag and
        search; on failure nothing changes. The view is in sync afterwards
        when neither the flag nor the search changed while loading. */
    method SettleLoad(req: LoadRequest, outcome: Outcome, loaded: seq<Todo>)
      modifies this
      ensures outcome == Succeeded ==>
        State() == old(State()).(todos := loaded,
                                 viewTodos := Project(req.isSortedTodos, req.search, loaded))
      ensures outcome == Failed ==> State() == old(State())
      ensures outcome == Succeeded && req == LoadRequest(isSortedTodos, search) ==> ViewInSync()
      ensures outcome == Failed ==> (old(ViewInSync()) ==> ViewInSync())
      ensures outcome == Succeeded || old(ViewWithinList()) ==> ViewWithinList()
    {
      if outcome == Succeeded {
        todos := loaded;
        viewTodos := Project(req.isSortedTodos, req.search, loaded);
        ProjectMembers(req.isSortedTodos, req.search, loaded);
      }
    }
  }

  /** A create and a delete overlap and both succeed. Both handlers closed
      over the same `refreshTodos`, so the create's settle flips the flag and
      the delete's settle writes the same value again: the flag changes once,
      not twice, and the load effect does not run a second time for the
      delete. Every busy flag is down again. */
  method OverlappingCreateAndDelete(list: TodoList, id: string)
    returns (afterCreate: bool, afterDelete: bool)
    requires AllDigitIds(list.todos)
    modifies list
    ensures afterCreate == !old(list.refreshTodos)
    ensures afterDelete == afterCreate
    ensures list.State() == old(list.State()).(refreshTodos := !old(list.refreshTodos), newTodo := "",
                                               isCreating := false, isDeleting := false)
  {
    var create := list.BeginCreate();
    var delete := list.BeginDelete(id);
    list.SettleCreate(create, Succeeded);
    afterCreate := list.refreshTodos;
    list.SettleDelete(delete, Succeeded);
    afterDelete := list.refreshTodos;
  }

  /** Two saves of the same edit. `updateTodo` does not look at `isUpdating`,
      and the Save button has no `disabled` attribute, so a second PUT is
      sent while the first is in flight, with the same body. The first
      settle lowers `isUpdating` although the second PUT is still
      outstanding. When both succeed the editing state is cleared,
      `isUpdating` is down and the refresh flag has changed once. */
  method OverlappingUpdates(list: TodoList)
    returns (first: Option<UpdateRequest>, second: Option<UpdateRequest>, busyAfterFirst: bool)
    requires list.editingTitle != "" && list.editingId != None
    modifies list
    ensures first.Some? && second.Some? && first == second
    ensures !busyAfterFirst
    ensures first.value.body == Todo(old(list.editingId).value, old(list.editingTitle), false)
    ensures list.State() == old(list.State()).(refreshTodos := !old(list.refreshTodos), editingId := None,
                                               editingTitle := "", isUpdating := false)
  {
    first := list.BeginUpdate();
    second := list.BeginUpdate();
    list.SettleUpdate(first.value, Succeeded);
    busyAfterFirst := list.isUpdating;
    list.SettleUpdate(second.value, Succeeded);
  }

  /** A load starts with an empty search; the user types "zzz" before the
      response arrives. The effect projects the loaded list with the search
      it closed over, so the todo titled "b" stays on screen although it does
      not match "zzz", and the view is out of sync with the state. */
  method StaleLoad(list: TodoList, t: Todo)
    requires list.search == "" && t.title == "b"
    modifies list
    ensures list.search == "zzz" && list.todos == [t] && list.viewTodos == [t]
    ensures !Matches(t, list.search)
    ensures !list.ViewInSync()
  {
    var req := list.BeginLoad();
    list.SetSearch("zzz");
    list.SettleLoad(req, Succeeded, [t]);
    ProjectEmptySearch(req.isSortedTodos, [t]);
    if req.isSortedTodos {
      assert SortByTitle([t]) == [t];
    }
    assert !Matches(t, "zzz");
    assert FilterMatching([t], "zzz") == [];
  }
}

=== FILE: todos.dfy ===
/** The record the backend stores and the component displays. */
module Todos {

  /** `{ id, title, completed }` as exchanged with the REST backend. */
  datatype Todo = Todo(id: string, title: string, completed: bool)
}

=== FILE: view_projection.dfy ===
/** `updateViewTodos`: the visible list as a pure function of the
    authoritative list, the search string and the sort flag. */
module ViewProjection {
  import opened Todos
  import opened Text

  /** The filter test: the lower-cased title contains the lower-cased search. */
  predicate Matches(t: Todo, search: string)
  {
    Includes(ToLower(t.title), ToLower(search))
  }

  /** The test ignores case on both sides: lower-casing the search or the
      title first changes nothing. */
  lemma MatchesIgnoresCase(t: Todo, search: string)
    ensures Matches(t, ToLower(search)) == Matches(t, search)
    ensures Matches(t.(title := ToLower(t.title)), search) == Matches(t, search)
  {
    ToLowerIdempotent(search);
    ToLowerIdempotent(t.title);
  }

  /** `todos.filter(todo => Matches(todo, search))`, front to back. */
  function FilterMatching(todos: seq<Todo>, search: string): (r: seq<Todo>)
    ensures |r| <= |todos|
    ensures forall t :: t in r ==> t in todos && Matches(t, search)
  {
    if todos == [] then []
    else (if Matches(todos[0], search) then [todos[0]] else []) + FilterMatching(todos[1..], search)
  }

  /** `xs` is `ys` with some elements dropped and the rest in their order. */
  predicate IsSubsequence(xs: seq<Todo>, ys: seq<Todo>)
    decreases |ys|
  {
    if xs == [] then true
    else if ys == [] then false
    else if xs[0] == ys[0] then IsSubsequence(xs[1..], ys[1..])
    else IsSubsequence(xs, ys[1..])
  }

  /** The filter keeps each matching todo as often as it occurs and drops
      every other todo. */
  lemma {:induction false} FilterMatchingCount(todos: seq<Todo>, search: string)
    ensures forall t :: multiset(FilterMatching(todos, search))[t]
                        == if Matches(t, search) then multiset(todos)[t] else 0
  {
    if todos != [] {
      FilterMatchingCount(todos[1..], search);
      assert todos == [todos[0]] + todos[1..];
    }
  }

  /** The filter keeps the todos in their original relative order. */
  lemma {:induction false} FilterMatchingOrder(todos: seq<Todo>, search: string)
    ensures IsSubsequence(FilterMatching(todos, search), todos)
  {
    if todos != [] {
      var rest := FilterMatching(todos[1..], search);
      FilterMatchingOrder(todos[1..], search);
      if Matches(todos[0], search) {
        assert FilterMatching(todos, search)[1..] == rest;
      } else {
        assert FilterMatching(todos, search) == rest;
        if rest != [] {
          assert rest[0] in rest && Matches(rest[0], search);
        }
      }
    }
  }

  /** The filter keeps exactly the matching todos, each as often as it
      occurs, in their original relative order. */
  lemma FilterMatchingSpec(todos: seq<Todo>, search: string)
    ensures forall t :: t in FilterMatching(todos, search) <==> t in todos && Matches(t, search)
    ensures forall t :: multiset(FilterMatching(todos, search))[t]
                        == if Matches(t, search) then multiset(todos)[t] else 0
    ensures IsSubsequence(FilterMatching(todos, search), todos)
  {
    FilterMatchingCount(todos, search);
    FilterMatchingOrder(todos, search);
    forall t
      ensures t in FilterMatching(todos, search) <==> t in todos && Matches(t, search)
    {
      assert t in FilterMatching(todos, search) <==> t in multiset(FilterMatching(todos, search));
      assert t in todos <==> t in multiset(todos);
    }
  }

  /** Filtering by the empty string would keep everything, so the explicit
      `search === ''` shortcut does not change the outcome. */
  lemma {:induction false} FilterMatchingEmptySearch(todos: seq<Todo>)
    ensures FilterMatching(todos, "") == todos
  {
    if todos != [] {
      IncludesEmpty(ToLower(todos[0].title));
      FilterMatchingEmptySearch(todos[1..]);
    }
  }

  /** The filter step: the list itself for an empty search, otherwise the
      matching todos. */
  function SearchFilter(todos: seq<Todo>, search: string): seq<Todo>
  {
    if search == "" then todos else FilterMatching(todos, search)
  }

  /** The comparator `a.title.localeCompare(b.title) <= 0`, taken as ordinal
      order on titles. */
  predicate TitleLe(a: Todo, b: Todo)
  {
    LexLe(a.title, b.title)
  }

  predicate SortedByTitle(s: seq<Todo>)
  {
    forall i, j :: 0 <= i < j < |s| ==> TitleLe(s[i], s[j])
  }

  /** Inserts `t` before the first element whose title does not sort before
      it, so `t` goes in front of any equal titles. The sort inserts each
      element into the already sorted rest of the list, so an element with an
      equal title that came earlier still ends up first (the sort is stable). */
  function InsertByTitle(t: Todo, s: seq<Todo>): (r: seq<Todo>)
    ensures multiset(r) == multiset(s) + multiset{t}
  {
    if s == [] then [t]
    else if TitleLe(t, s[0]) then [t] + s
    else
      assert s == [s[0]] + s[1..];
      [s[0]] + InsertByTitle(t, s[1..])
  }

  /** `[...s].sort((a, b) => a.title.localeCompare(b.title))` on a copy. */
  function SortByTitle(s: seq<Todo>): (r: seq<Todo>)
    ensures multiset(r) == multiset(s)
  {
    if s == [] then []
    else
      assert s == [s[0]] + s[1..];
      InsertByTitle(s[0], SortByTitle(s[1..]))
  }

  /** A todo whose title sorts no later than every title of a sorted list
      can go in front of it. */
  lemma SortedCons(x: Todo, s: seq<Todo>)
    requires SortedByTitle(s)
    requires forall y :: y in s ==> TitleLe(x, y)
    ensures SortedByTitle([x] + s)
  {
    var r := [x] + s;
    forall i, j | 0 <= i < j < |r|
      ensures TitleLe(r[i], r[j])
    {
      assert r[j] == s[j - 1] && r[j] in s;
      if i > 0 {
        assert r[i] == s[i - 1];
      }
    }
  }

  /** The head of a sorted list sorts no later than every element. */
  lemma SortedHeadFirst(s: seq<Todo>, y: Todo)
    requires SortedByTitle(s) && s != []
    requires y in s
    ensures TitleLe(s[0], y)
  {
    var j :| 0 <= j < |s| && s[j] == y;
    if j == 0 {
      LexLeReflexive(y.title);
    }
  }

  lemma {:induction false} InsertByTitleSorted(t: Todo, s: seq<Todo>)
    requires SortedByTitle(s)
    ensures SortedByTitle(InsertByTitle(t, s))
  {
    if s == [] {
    } else if TitleLe(t, s[0]) {
      forall y | y in s
        ensures TitleLe(t, y)
      {
        SortedHeadFirst(s, y);
        LexLeTransitive(t.title, s[0].title, y.title);
      }
      SortedCons(t, s);
    } else {
      var tail := InsertByTitle(t, s[1..]);
      InsertByTitleSorted(t, s[1..]);
      LexLeTotal(t.title, s[0].title);
      forall y | y in tail
        ensures TitleLe(s[0], y)
      {
        assert y in multiset(tail);
        if y != t {
          assert y in multiset(s[1..]);
          SortedHeadFirst(s, y);
        }
      }
      SortedCons(s[0], tail);
    }
  }

  /** The sort yields a title-ordered permutation of its input. */
  lemma {:induction false} SortByTitleSpec(s: seq<Todo>)
    ensures SortedByTitle(SortByTitle(s))
    ensures multiset(SortByTitle(s)) == multiset(s)
  {
    if s != [] {
      SortByTitleSpec(s[1..]);
      InsertByTitleSorted(s[0], SortByTitle(s[1..]));
      assert s == [s[0]] + s[1..];
    }
  }

  /** Sorting a list that is already in title order returns it unchanged. */
  lemma {:induction false} SortByTitleOfSorted(s: seq<Todo>)
    requires SortedByTitle(s)
    ensures SortByTitle(s) == s
  {
    if s != [] {
      SortByTitleOfSorted(s[1..]);
    }
  }

  /** `updateViewTodos(isSortedTodos, search, todos)`: filter, then sort a
      copy when sorting is on. */
  function Project(isSortedTodos: bool, search: string, todos: seq<Todo>): seq<Todo>
  {
    var filtered := SearchFilter(todos, search);
    if isSortedTodos then SortByTitle(filtered) else filtered
  }

  /** Empty search, sorting off: the view is the list itself. Empty search,
      sorting on: the view holds the same todos, each as often. */
  lemma ProjectEmptySearch(isSortedTodos: bool, todos: seq<Todo>)
    ensures !isSortedTodos ==> Project(isSortedTodos, "", todos) == todos
    ensures multiset(Project(isSortedTodos, "", todos)) == multiset(todos)
  {
    SortByTitleSpec(todos);
  }

  /** Sorting off: the view holds exactly the todos whose title contains the
      search, case-insensitively, as often as the list does and in the list's
      order. This holds for the empty search too. */
  lemma ProjectUnsorted(search: string, todos: seq<Todo>)
    ensures forall t :: t in Project(false, search, todos) <==> t in todos && Matches(t, search)
    ensures forall t :: multiset(Project(false, search, todos))[t]
                        == if Matches(t, search) then multiset(todos)[t] else 0
    ensures IsSubsequence(Project(false, search, todos), todos)
  {
    FilterMatchingEmptySearch(todos);
    FilterMatchingSpec(todos, search);
  }

  /** Sorting on: the view is the unsorted view put in title order, with the
      same todos each as often. */
  lemma ProjectSorted(search: string, todos: seq<Todo>)
    ensures SortedByTitle(Project(true, search, todos))
    ensures multiset(Project(true, search, todos)) == multiset(Project(false, search, todos))
  {
    SortByTitleSpec(SearchFilter(todos, search));
  }

  /** Whatever the flags, the view shows only todos of the list that match
      the search, and all of them. */
  lemma ProjectMembers(isSortedTodos: bool, search: string, todos: seq<Todo>)
    ensures forall t :: t in Project(isSortedTodos, search, todos) <==> t in todos && Matches(t, search)
  {
    ProjectUnsorted(search, todos);
    ProjectSorted(search, todos);
    forall t
      ensures t in Project(true, search, todos) <==> t in Project(false, search, todos)
    {
      assert t in Project(true, search, todos) <==> t in multiset(Project(true, search, todos));
    }
  }

  /** Sorting the sorted view again changes nothing. */
  lemma ProjectSortIdempotent(search: string, todos: seq<Todo>)
    ensures SortByTitle(Project(true, search, todos)) == Project(true, search, todos)
  {
    ProjectSorted(search, todos);
    SortByTitleOfSorted(Project(true, search, todos));
  }
}
